=== FILE: README.md ===
# pfru rename pipeline — a Dafny model

pfru renames files with Lua string patterns. Each file name (not the whole path) is matched
against a pattern. The sub-captures get the names given with `--cap`. The `--sub` template is
rendered with those names and the result becomes the file's new name. With `--diff` the
proposals are only shown. Without it, each file needs a yes/no confirmation before it is
renamed.

This project models the per-file pipeline and the batch loop of `main`. They are pure functions
over immutable data:

- `Paths` — a path is its directory part and its last component. That component is missing,
  not UTF-8, or text. `WithFileName` is `PathBuf::set_file_name` for a rendered name that is one
  ordinary component (see "Left out" for the names it does not cover).
- `Binder` — the capture-count check, `Iterator::zip`, and `HashMap::from_iter` with its
  last-insert-wins rule. `LastWins` is an independent description of the resulting map.
  `LastWinsUnique` proves that this description determines the map.
- `Planner` — the parsed command line (`Config`), the two library capabilities (`Capabilities`:
  the Lua matcher and the `strfmt` renderer, both taken as parameters) and the per-file decision
  `MakePlan`. The decision is skip, propose a name, or fail to render.
- `Batch` — the loop. `Step` handles one file, `Confirm` is the prompt-and-rename part, and
  `Run` walks the list, stopping at the first error. The model performs no I/O: the prompt's answers
  and the outcomes of the filesystem renames come from an `Env` of oracle sequences. The run
  produces a trace of events: `Skipped`, `Shown`, `Confirmed`, `Declined` and `Renamed`. It also
  returns a status (`Completed` or `Aborted(error)`) and what remains of the `Env`.
- `BatchProperties` — lemmas over whole runs.
- `ExampleRun` — the two-file example with pattern `(%d+)-(%a+)` and template `{word}_{num}`,
  worked out as lemmas over a stand-in matcher.

Behaviour of the code that a batch renamer might be expected to handle differently, kept as written:

- A failed filesystem rename does not just get reported while the batch goes on. It ends the
  whole run, because `std::fs::rename(...)?` propagates the error out of `main`. A failed prompt
  (interrupted, or input closed) ends the run the same way. `Confirm` and
  `StepAbortsOnPromptOrRenameError` state when a file's handling aborts, and `FatalStepEndsRun`
  states that such an abort ends the run.
- The rendered text replaces the whole file name. An extension is kept only if the pattern and
  template carry it. In the two-file example, `42-report.txt` becomes `report_42`, not
  `report_42.txt` (`ExampleRun.DryRunExample`).
- The code aborts "before any rename" on a template that names an undeclared capture only
  because every bound map has the same key set. That holds only when the renderer's failure
  depends on that key set alone. `MisconfiguredTemplateRenamesNothing` takes this as an explicit
  hypothesis.
- Skipped files produce no output in the code. The `Skipped` event is a marker of the model, and
  `SkipsAreInvisible` proves that it carries no effect.

## Model

| member | source | states |
|---|---|---|
| Paths.WithFileName | src/main.rs:82-83 | the rename target keeps the directory, has the rendered name as its file name, and equals the source only if the name is unchanged |
| Binder.Zip | src/main.rs:64-67 | names are paired with values position by position, stopping at the shorter sequence |
| Binder.FromPairs | src/main.rs:63-68 | the map's keys are exactly the pairs' keys, and each key holds the value of its last pair (a later duplicate overwrites) |
| Binder.LastWinsUnique | src/main.rs:63-70 | any two maps that bind the names last-wins to the same values are equal, so the render input is determined by the names and the captures |
| Binder.Bind | src/main.rs:53-68 | a binding exists exactly when there is one capture more than there are names; it binds every declared name, and only those, to the sub-capture at its last position |
| Binder.BindIsLastWins | src/main.rs:53-68 | conversely, with the right capture count, any map that binds the names last-wins to the sub-captures is exactly the binder's result |
| Planner.MakePlan | src/main.rs:45-59 | a file is skipped exactly when it has no UTF-8 name or its capture count is not names+1, so a file with no match is always skipped |
| Planner.PlanRendersLastWinsBinding | src/main.rs:63-70 | for a file that passes the checks, the plan is the renderer's result on the last-wins binding of the names to the sub-captures: a proposal on success, a render failure otherwise |
| Batch.Confirm | src/main.rs:79-88 | the first answer decides: a failed or missing answer aborts with a prompt failure and does nothing; "no" declines, uses only that answer and completes; the file is confirmed exactly on "yes"; after "yes" the step completes exactly when the rename succeeds, the file is renamed into its own directory exactly on "yes" plus a successful rename, and a failed rename aborts with that source and target; each prompt uses up exactly one answer and a "yes" exactly one rename outcome; the part touches only its own file and acts on it at most once |
| Batch.Step | src/main.rs:44-89 | one file's events concern only that file; a skipped file yields a single skip event and uses no answers; with `--diff` no answer is used and only skip or show events occur; a render error yields no events |
| Batch.Run | src/main.rs:44 | the loop visits only the listed paths: every event of a run concerns a file of the list |
| BatchProperties.RunAppend | src/main.rs:44-90 | running a list is running a prefix and then, unless it aborted, the rest from the answers left over |
| BatchProperties.FatalStepEndsRun | src/main.rs:70-85 | a file whose handling aborts (on a render error, or on the prompt or rename errors that `Confirm` and `StepAbortsOnPromptOrRenameError` characterise) ends the run there; the earlier files' events are kept and no later file is processed |
| BatchProperties.StepAbortsOnPromptOrRenameError | src/main.rs:79-88 | without `--diff`, a proposed file's handling aborts exactly when the prompt fails or its input is closed, or the answer is "yes" and the rename fails; the file is declined exactly when the answer is "no" |
| BatchProperties.RenderErrorStopsAtFile | src/main.rs:70 | a render error at file i aborts with that error before the file is shown, confirmed or renamed, and the earlier events stay unchanged |
| BatchProperties.DryRunIsReadOnly | src/main.rs:79 | with `--diff`, for any list, no prompt answer or rename outcome is used, every event is a skip or a show, and only a render error can abort |
| BatchProperties.DryRunShowsEachMatch | src/main.rs:70-79 | with `--diff`, a completed run shows exactly one proposal per file that passes the checks, in list order, each with that file's rendered name |
| BatchProperties.StepRenamesConfirmed | src/main.rs:79-86 | in one file's events, a rename is immediately preceded by the "yes" for that file and the proposal shown for it |
| BatchProperties.RunRenamesConfirmed | src/main.rs:44-86 | over a whole run, every rename is immediately preceded by the "yes" for that file and by the proposal shown for it, and targets the shown name |
| BatchProperties.RenamesKeepDirectory | src/main.rs:82-85 | in any trace where renames follow their proposals, every rename target has the source's directory and a text file name |
| BatchProperties.RenameFollowsConfirmation | src/main.rs:79-86 | in a whole run, every rename follows the confirmation and proposal of the same file, targets the shown name, and keeps the directory |
| BatchProperties.StepShowsRendered | src/main.rs:69-77 | with or without `--diff`, a file with a proposal is shown first, with the name rendered for it, and every proposal a step shows is its file's rendered name |
| BatchProperties.RunShowsRendered | src/main.rs:44-77 | over a whole run, every proposal shown carries the name rendered for the file it is shown for |
| BatchProperties.RenamesToRenderedName | src/main.rs:69-85 | every rename of a run targets its source with only the file name replaced, by the name rendered for that file |
| BatchProperties.StepActsOnItsFileOnly | src/main.rs:80-88 | one file is renamed or declined at most once, and only that file |
| BatchProperties.ActedAtMostOncePerEntry | src/main.rs:44-88 | over a run, renames and declines together occur at most as often as a path occurs in the list |
| BatchProperties.StepNeverDeclinesAndRenames | src/main.rs:80-88 | one file is never both declined and renamed |
| BatchProperties.DeclinedNeverRenamed | src/main.rs:87 | with distinct paths, a file the user declined is not renamed anywhere in the run |
| BatchProperties.Unskipped | src/main.rs:45-59 | the files kept are exactly the listed files that have a UTF-8 name and the right capture count, each kept no more often than it is listed |
| BatchProperties.SkipsAreInvisible | src/main.rs:45-59 | apart from skip markers, a run behaves exactly like a run over only the files that pass the checks (same events, status and remaining answers) |
| BatchProperties.MisconfiguredTemplateRenamesNothing | src/main.rs:63-70 | if the template fails for every binding of the declared names, nothing is shown, asked or renamed, and the run aborts exactly when some file passes the checks |
| ExampleRun.ReportPlan | src/main.rs:53-70 | `42-report.txt` binds `num` to `42` and `word` to `report`, and renders to `report_42` |
| ExampleRun.DryRunExample | src/main.rs:44-79 | with `--diff`, the two-file example shows one proposal, skips the other file and uses no answers |
| ExampleRun.ConfirmedStep | src/main.rs:79-86 | answering "yes" for `docs/42-report.txt` shows `report_42`, confirms, and renames it to `docs/report_42`, using one answer and one rename outcome |
| ExampleRun.ConfirmedExample | src/main.rs:44-90 | without `--diff`, answering "yes" renames `docs/42-report.txt` to `docs/report_42` and skips the other file |

## Left out

- Command-line parsing with `clap` (src/main.rs:17-40): the configuration is the plain `Config` record.
- The Lua pattern algorithm of `lua-patterns`: it is foreign code, so it is the `matcher` parameter. A malformed pattern makes `LuaPattern::new` panic, and that is not modelled. The matcher value is mutable, and its calls are assumed not to affect each other.
- `strfmt` substitution: it is foreign code, so it is the `render` parameter, which returns a text or an error message.
- Coloured output with `owo_colors` (src/main.rs:72-77): display only. It appears as the `Shown` event.
- The `inquire` prompt and `std::fs::rename`: interactive and filesystem I/O. They are oracle sequences in `Env`. An exhausted answer sequence counts as a prompt error, as when input is closed. An exhausted rename sequence counts as a rename failure. The filesystem's own state (which paths exist, overwriting an existing target) is not modelled.
- `OsStr` to UTF-8 conversion: platform-specific. Each path carries its last component as missing, non-UTF-8 bytes, or text.
- Paths.WithFileName: treats the rendered name as one ordinary component. A rendered name that contains a path separator, is absolute, is empty, or is `.` or `..` would not become the target's file name under `PathBuf::set_file_name`: `docs/.` has file name `docs`, `docs/..` has none, and both name a directory. This is not modelled, so the promise that the target's file name is the rendered name holds only for ordinary names.
- The process exit status and the formatting of the `anyhow` error that `main` returns: the model stops at `Aborted(error)`.

=== FILE: batch.dfy ===
/** The batch controller: walks the files in order, shows each proposal and, unless
    `--diff` is given, asks for confirmation and renames. */
module Batch {
  import opened Paths
  import opened Planner

  /** One answer to the "Proceed with changes?" prompt. */
  datatype Answer = Yes | No | PromptError(reason: string)

  /** The result of one filesystem rename. */
  datatype IoResult = IoOk | IoError(reason: string)

  /** What the outside world will answer, in order: the prompt's answers and the outcomes
      of the filesystem renames. When the answers run out the prompt fails, as it does when
      its input is closed; when the rename outcomes run out the rename fails. */
  datatype Env = Env(answers: seq<Answer>, renames: seq<IoResult>)

  /** An error that ends the whole run. */
  datatype Error =
    | RenderError(message: string)
    | PromptFailure(reason: string)
    | RenameFailure(from: Path, to: Path, reason: string)

  /** What happens to one file, in order. `Skipped` marks a file passed over without
      output; `Shown` is the printed proposal; `Confirmed` and `Declined` are the answers
      to the prompt (a decline prints "no changes were made"); `Renamed` is a rename that
      succeeded. */
  datatype Event =
    | Skipped(path: Path, reason: SkipReason)
    | Shown(path: Path, newName: string)
    | Confirmed(path: Path)
    | Declined(path: Path)
    | Renamed(from: Path, to: Path)

  datatype Status = Completed | Aborted(error: Error)

  /** The events of a run (or of one file), how it ended, and what is left of the world's answers. */
  datatype Outcome = Outcome(trace: seq<Event>, status: Status, env: Env)

  /** The file an event is about. */
  function Subject(e: Event): Path
  {
    match e
    case Skipped(p, _) => p
    case Shown(p, _) => p
    case Confirmed(p) => p
    case Declined(p) => p
    case Renamed(p, _) => p
  }

  /** The file an event acts on, if it is a rename or a decline. */
  function ActedOne(e: Event): seq<Path>
  {
    if e.Renamed? || e.Declined? then [Subject(e)] else []
  }

  /** The files the user acted on, in order: renamed or declined. */
  function Acted(trace: seq<Event>): seq<Path>
  {
    if |trace| == 0 then []
    else
      ActedOne(trace[0]) + Acted(trace[1..])
  }

  lemma {:induction false} ActedAppend(a: seq<Event>, b: seq<Event>)
    ensures Acted(a + b) == Acted(a) + Acted(b)
    decreases |a|
  {
    if |a| == 0 {
      assert a + b == b;
    } else {
      assert (a + b)[0] == a[0];
      assert (a + b)[1..] == a[1..] + b;
      ActedAppend(a[1..], b);
    }
  }

  /** Asks "Proceed with changes?" once. */
  function Ask(env: Env): (Answer, Env)
  {
    if |env.answers| == 0 then (PromptError("input closed"), env)
    else (env.answers[0], env.(answers := env.answers[1..]))
  }

  /** Performs one filesystem rename. */
  function Rename(env: Env): (IoResult, Env)
  {
    if |env.renames| == 0 then (IoError("no outcome"), env)
    else (env.renames[0], env.(renames := env.renames[1..]))
  }

  /** Runs `a` and then, unless `a` aborted, `b`. */
  function Then(a: Outcome, b: Outcome): Outcome
    requires a.status.Completed?
  {
    Outcome(a.trace + b.trace, b.status, b.env)
  }

  /** Asks for confirmation of one proposal and, on "yes", renames the file within its
      directory. A prompt or rename error ends the run. */
  function Confirm(path: Path, newName: string, env: Env): (o: Outcome)
    ensures forall e | e in o.trace :: Subject(e) == path
    ensures Acted(o.trace) == [] || Acted(o.trace) == [path]
    ensures o.status.Aborted? ==> Acted(o.trace) == []
    ensures Declined(path) in o.trace ==> o.status.Completed? && o.env.renames == env.renames
    ensures o.env.renames != env.renames ==> Confirmed(path) in o.trace
    // The first answer decides: a missing or failed answer aborts before anything happens,
    // "no" only consumes the answer, and "yes" is what confirms.
    ensures |env.answers| == 0 || env.answers[0].PromptError? ==>
      o.trace == [] && o.status.Aborted? && o.status.error.PromptFailure? && o.env.renames == env.renames
    ensures |env.answers| > 0 && env.answers[0] == No ==>
      o == Outcome([Declined(path)], Completed, env.(answers := env.answers[1..]))
    ensures Confirmed(path) in o.trace <==> |env.answers| > 0 && env.answers[0] == Yes
    // After a "yes" the rename outcome decides: success renames into the same directory,
    // failure ends the run with the attempted rename.
    ensures |env.answers| > 0 && env.answers[0] == Yes ==>
      (o.status.Completed? <==> |env.renames| > 0 && env.renames[0] == IoOk)
    ensures Renamed(path, WithFileName(path, newName)) in o.trace <==>
      |env.answers| > 0 && env.answers[0] == Yes && |env.renames| > 0 && env.renames[0] == IoOk
    // Each prompt uses up exactly one answer, and a "yes" uses up exactly one rename outcome.
    ensures |env.answers| > 0 ==> o.env.answers == env.answers[1..]
    ensures |env.answers| > 0 && env.answers[0] == Yes ==>
      o.env.renames == if |env.renames| > 0 then env.renames[1..] else env.renames
    ensures o.status.Aborted? && o.status.error.RenameFailure? ==>
      o.status.error == RenameFailure(path, WithFileName(path, newName), o.status.error.reason)
  {
    var (answer, env1) := Ask(env);
    match answer
    case PromptError(reason) => Outcome([], Aborted(PromptFailure(reason)), env1)
    case No => Outcome([Declined(path)], Completed, env1)
    case Yes =>
      var target := WithFileName(path, newName);
      var (io, env2) := Rename(env1);
      match io
      case IoOk =>
        var t := [Confirmed(path), Renamed(path, target)];
        assert t[1..] == [Renamed(path, target)] && t[1..][1..] == [];
        assert Acted(t) == ActedOne(t[0]) + Acted(t[1..]) == [] + [path];
        Outcome(t, Completed, env2)
      case IoError(reason) =>
        Outcome([Confirmed(path)], Aborted(RenameFailure(path, target, reason)), env2)
  }

  /** Handles one file: plan, show, and unless `--diff` confirm and rename. */
  function Step(cfg: Config, caps: Capabilities, path: Path, env: Env): (o: Outcome)
    ensures forall e | e in o.trace :: Subject(e) == path
    ensures Renamable(cfg, caps, path) ==> forall e | e in o.trace :: !e.Skipped?
    ensures !Renamable(cfg, caps, path) ==>
      o.status.Completed? && o.env == env && |o.trace| == 1 && o.trace[0].Skipped?
    ensures cfg.diff ==> o.env == env && forall e | e in o.trace :: e.Skipped? || e.Shown?
    ensures o.status.Aborted? && o.status.error.RenderError? ==> o.trace == [] && o.env == env
  {
    match MakePlan(cfg, caps, path)
    case Skip(reason) => Outcome([Skipped(path, reason)], Completed, env)
    case RenderFailed(message) => Outcome([], Aborted(RenderError(message)), env)
    case Propose(newName) =>
      var shown := Outcome([Shown(path, newName)], Completed, env);
      if cfg.diff then shown else Then(shown, Confirm(path, newName, env))
  }

  /** The loop over the files: each file in turn, stopping at the first error. */
  function Run(cfg: Config, caps: Capabilities, files: seq<Path>, env: Env): (o: Outcome)
    ensures forall e | e in o.trace :: Subject(e) in files
    decreases |files|
  {
    if |files| == 0 then Outcome([], Completed, env)
    else
      var s := Step(cfg, caps, files[0], env);
      if s.status.Aborted? then s
      else
        Then(s, Run(cfg, caps, files[1..], s.env))
  }
}

=== FILE: batch_properties.dfy ===
/** Properties of the batch controller over whole runs. */
module BatchProperties {
  import opened Paths
  import opened Binder
  import opened Planner
  import opened Batch

  // ---------------------------------------------------------------------------
  // Sequential composition and fail-fast
  // ---------------------------------------------------------------------------

  /** Running a list is running its first part and then, unless that aborted, the rest
      from where the world's answers were left. */
  lemma {:induction false} RunAppend(cfg: Config, caps: Capabilities, a: seq<Path>, b: seq<Path>, env: Env)
    ensures var first := Run(cfg, caps, a, env);
      Run(cfg, caps, a + b, env) ==
        if first.status.Aborted? then first else Then(first, Run(cfg, caps, b, first.env))
    decreases |a|
  {
    if |a| == 0 {
      assert a + b == b;
      assert [] + Run(cfg, caps, b, env).trace == Run(cfg, caps, b, env).trace;
    } else {
      assert (a + b)[0] == a[0];
      assert (a + b)[1..] == a[1..] + b;
      var s := Step(cfg, caps, a[0], env);
      if s.status.Completed? {
        RunAppend(cfg, caps, a[1..], b, s.env);
        var mid := Run(cfg, caps, a[1..], s.env);
        if mid.status.Completed? {
          var rest := Run(cfg, caps, b, mid.env);
          assert s.trace + (mid.trace + rest.trace) == (s.trace + mid.trace) + rest.trace;
        }
      }
    }
  }

  /** A file whose handling ends in an error (a render, prompt or rename error) ends the run
      there: what the earlier files did stays as it was, and no later file is looked at. */
  lemma FatalStepEndsRun(cfg: Config, caps: Capabilities, files: seq<Path>, i: nat, env: Env)
    requires i < |files|
    requires Run(cfg, caps, files[..i], env).status.Completed?
    requires Step(cfg, caps, files[i], Run(cfg, caps, files[..i], env).env).status.Aborted?
    ensures var before := Run(cfg, caps, files[..i], env);
      Run(cfg, caps, files, env) == Then(before, Step(cfg, caps, files[i], before.env))
  {
    var before := Run(cfg, caps, files[..i], env);
    var rest := files[i..];
    assert files == files[..i] + rest;
    RunAppend(cfg, caps, files[..i], rest, env);
    assert rest[0] == files[i];
    RunFromAbortingStep(cfg, caps, rest, before.env);
  }

  /** A list whose first file aborts runs as that file alone. */
  lemma RunFromAbortingStep(cfg: Config, caps: Capabilities, files: seq<Path>, env: Env)
    requires |files| > 0 && Step(cfg, caps, files[0], env).status.Aborted?
    ensures Run(cfg, caps, files, env) == Step(cfg, caps, files[0], env)
  {
  }

  /** Without `--diff`, a proposed rename aborts its file exactly when the prompt fails (or
      its input is closed) or when the answer is "yes" and the rename fails; the file is
      declined exactly when the answer is "no". Together with `FatalStepEndsRun` this is the
      fail-fast behaviour of the prompt and the rename. */
  lemma StepAbortsOnPromptOrRenameError(cfg: Config, caps: Capabilities, path: Path, env: Env)
    requires !cfg.diff && MakePlan(cfg, caps, path).Propose?
    ensures var o := Step(cfg, caps, path, env);
      o.status.Aborted? <==>
        |env.answers| == 0 || env.answers[0].PromptError? ||
        (env.answers[0] == Yes && (|env.renames| == 0 || env.renames[0].IoError?))
    ensures Declined(path) in Step(cfg, caps, path, env).trace <==> |env.answers| > 0 && env.answers[0] == No
  {
    var newName := MakePlan(cfg, caps, path).newName;
    var c := Confirm(path, newName, env);
    assert Step(cfg, caps, path, env) == Then(Outcome([Shown(path, newName)], Completed, env), c);
    assert Declined(path) in c.trace <==> Declined(path) in [Shown(path, newName)] + c.trace;
  }

  /** A render error at file `i` aborts the run with that error before the file is shown,
      confirmed or renamed; the events of the earlier files are kept unchanged. */
  lemma RenderErrorStopsAtFile(cfg: Config, caps: Capabilities, files: seq<Path>, i: nat, env: Env)
    requires i < |files|
    requires Run(cfg, caps, files[..i], env).status.Completed?
    requires MakePlan(cfg, caps, files[i]).RenderFailed?
    ensures var before := Run(cfg, caps, files[..i], env);
      Run(cfg, caps, files, env) ==
        Outcome(before.trace, Aborted(RenderError(MakePlan(cfg, caps, files[i]).message)), before.env)
  {
    var before := Run(cfg, caps, files[..i], env);
    FatalStepEndsRun(cfg, caps, files, i, env);
    assert before.trace + [] == before.trace;
  }

  // ---------------------------------------------------------------------------
  // Dry run (`--diff`)
  // ---------------------------------------------------------------------------

  /** With `--diff` nothing is asked and nothing is renamed, for any list of files: every
      event is a skip or a shown proposal, none of the world's answers is used, and the only
      way the run can fail is a render error. */
  lemma {:induction false} DryRunIsReadOnly(cfg: Config, caps: Capabilities, files: seq<Path>, env: Env)
    requires cfg.diff
    ensures var r := Run(cfg, caps, files, env);
      && r.env == env
      && (forall e | e in r.trace :: e.Skipped? || e.Shown?)
      && (r.status.Aborted? ==> r.status.error.RenderError?)
    decreases |files|
  {
    if |files| > 0 {
      var s := Step(cfg, caps, files[0], env);
      if s.status.Completed? {
        DryRunIsReadOnly(cfg, caps, files[1..], env);
      }
    }
  }

  // ---------------------------------------------------------------------------
  // Confirmation before renaming
  // ---------------------------------------------------------------------------

  /** Every rename in `t` comes right after a "yes" for the same file, which comes right
      after the proposal shown for it, and moves the file to the shown name in the same
      directory. */
  predicate RenamesConfirmed(t: seq<Event>)
  {
    forall j | 0 <= j < |t| && t[j].Renamed? ::
      && 2 <= j
      && t[j - 1] == Confirmed(t[j].from)
      && t[j - 2].Shown?
      && t[j - 2].path == t[j].from
      && t[j].to == WithFileName(t[j].from, t[j - 2].newName)
  }

  lemma RenamesConfirmedAppend(a: seq<Event>, b: seq<Event>)
    requires RenamesConfirmed(a) && RenamesConfirmed(b)
    ensures RenamesConfirmed(a + b)
  {
    var t := a + b;
    forall j | 0 <= j < |t| && t[j].Renamed?
      ensures 2 <= j && t[j - 1] == Confirmed(t[j].from) && t[j - 2].Shown?
        && t[j - 2].path == t[j].from && t[j].to == WithFileName(t[j].from, t[j - 2].newName)
    {
      if j >= |a| {
        var k := j - |a|;
        assert b[k] == t[j];
        assert b[k - 1] == t[j - 1] && b[k - 2] == t[j - 2];
      }
    }
  }

  /** The four ways a confirmation can go: prompt error, "no", rename error, or a rename. */
  lemma ConfirmShapes(path: Path, newName: string, env: Env)
    ensures var t := Confirm(path, newName, env).trace;
      || t == []
      || t == [Declined(path)]
      || t == [Confirmed(path)]
      || t == [Confirmed(path), Renamed(path, WithFileName(path, newName))]
  {
  }

  lemma ShownThenConfirmed(path: Path, newName: string, t: seq<Event>)
    requires || t == []
             || t == [Declined(path)]
             || t == [Confirmed(path)]
             || t == [Confirmed(path), Renamed(path, WithFileName(path, newName))]
    ensures RenamesConfirmed([Shown(path, newName)] + t)
  {
  }

  lemma StepRenamesConfirmed(cfg: Config, caps: Capabilities, path: Path, env: Env)
    ensures RenamesConfirmed(Step(cfg, caps, path, env).trace)
  {
    var plan := MakePlan(cfg, caps, path);
    var t := Step(cfg, caps, path, env).trace;
    if plan.Propose? && !cfg.diff {
      var c := Confirm(path, plan.newName, env);
      assert t == [Shown(path, plan.newName)] + c.trace;
      ConfirmShapes(path, plan.newName, env);
      ShownThenConfirmed(path, plan.newName, c.trace);
    } else {
      assert forall e | e in t :: !e.Renamed?;
    }
  }

  lemma {:induction false} RunRenamesConfirmed(cfg: Config, caps: Capabilities, files: seq<Path>, env: Env)
    ensures RenamesConfirmed(Run(cfg, caps, files, env).trace)
    decreases |files|
  {
    if |files| > 0 {
      var s := Step(cfg, caps, files[0], env);
      StepRenamesConfirmed(cfg, caps, files[0], env);
      if s.status.Completed? {
        var r := Run(cfg, caps, files[1..], s.env);
        assert Run(cfg, caps, files, env).trace == s.trace + r.trace;
        RunRenamesConfirmed(cfg, caps, files[1..], s.env);
        RenamesConfirmedAppend(s.trace, r.trace);
      }
    }
  }

  lemma RenamesKeepDirectory(t: seq<Event>)
    requires RenamesConfirmed(t)
    ensures forall e | e in t && e.Renamed? :: e.to.dir == e.from.dir && e.to.name.Utf8?
  {
    forall e | e in t && e.Renamed?
      ensures e.to.dir == e.from.dir && e.to.name.Utf8?
    {
      var j :| 0 <= j < |t| && t[j] == e;
      assert e.to == WithFileName(e.from, t[j - 2].newName);
    }
  }

  /** A file is renamed only after the user confirmed that very file, only to the name that
      was shown for it, and only within its own directory. */
  lemma RenameFollowsConfirmation(cfg: Config, caps: Capabilities, files: seq<Path>, env: Env)
    ensures var t := Run(cfg, caps, files, env).trace;
      && RenamesConfirmed(t)
      && forall e | e in t && e.Renamed? :: e.to.dir == e.from.dir && e.to.name.Utf8?
  {
    RunRenamesConfirmed(cfg, caps, files, env);
    RenamesKeepDirectory(Run(cfg, caps, files, env).trace);
  }

  // ---------------------------------------------------------------------------
  // The name shown, and so the name renamed to, is the rendered proposal
  // ---------------------------------------------------------------------------

  /** Every proposal shown in `t` carries the name the plan for its file proposes. */
  predicate ShowsRendered(cfg: Config, caps: Capabilities, t: seq<Event>)
  {
    forall j | 0 <= j < |t| && t[j].Shown? :: MakePlan(cfg, caps, t[j].path) == Propose(t[j].newName)
  }

  /** A file with a proposal is shown first, with the rendered name, whether or not `--diff`
      is given; every proposal a step shows is its file's rendered name. */
  lemma StepShowsRendered(cfg: Config, caps: Capabilities, path: Path, env: Env)
    ensures var o := Step(cfg, caps, path, env);
      MakePlan(cfg, caps, path).Propose? ==>
        |o.trace| > 0 && o.trace[0] == Shown(path, MakePlan(cfg, caps, path).newName)
    ensures ShowsRendered(cfg, caps, Step(cfg, caps, path, env).trace)
  {
    var plan := MakePlan(cfg, caps, path);
    var t := Step(cfg, caps, path, env).trace;
    if plan.Propose? && !cfg.diff {
      var c := Confirm(path, plan.newName, env);
      assert t == [Shown(path, plan.newName)] + c.trace;
      ConfirmShapes(path, plan.newName, env);
      assert forall e | e in c.trace :: !e.Shown?;
    }
  }

  lemma ShowsRenderedAppend(cfg: Config, caps: Capabilities, a: seq<Event>, b: seq<Event>)
    requires ShowsRendered(cfg, caps, a) && ShowsRendered(cfg, caps, b)
    ensures ShowsRendered(cfg, caps, a + b)
  {
    var t := a + b;
    forall j | 0 <= j < |t| && t[j].Shown?
      ensures MakePlan(cfg, caps, t[j].path) == Propose(t[j].newName)
    {
      if j >= |a| {
        assert t[j] == b[j - |a|];
      } else {
        assert t[j] == a[j];
      }
    }
  }

  /** Over a whole run, with or without `--diff`, every proposal shown is the rendered name
      of the file it is shown for. */
  lemma {:induction false} RunShowsRendered(cfg: Config, caps: Capabilities, files: seq<Path>, env: Env)
    ensures ShowsRendered(cfg, caps, Run(cfg, caps, files, env).trace)
    decreases |files|
  {
    if |files| > 0 {
      var s := Step(cfg, caps, files[0], env);
      StepShowsRendered(cfg, caps, files[0], env);
      if s.status.Completed? {
        var r := Run(cfg, caps, files[1..], s.env);
        assert Run(cfg, caps, files, env).trace == s.trace + r.trace;
        RunShowsRendered(cfg, caps, files[1..], s.env);
        ShowsRenderedAppend(cfg, caps, s.trace, r.trace);
      }
    }
  }

  /** Every rename of a run replaces only the file name of its source, by the name rendered
      for that file. */
  lemma RenamesToRenderedName(cfg: Config, caps: Capabilities, files: seq<Path>, env: Env)
    ensures forall e | e in Run(cfg, caps, files, env).trace && e.Renamed? ::
      && MakePlan(cfg, caps, e.from).Propose?
      && e.to == WithFileName(e.from, MakePlan(cfg, caps, e.from).newName)
  {
    var t := Run(cfg, caps, files, env).trace;
    RunRenamesConfirmed(cfg, caps, files, env);
    RunShowsRendered(cfg, caps, files, env);
    forall e | e in t && e.Renamed?
      ensures MakePlan(cfg, caps, e.from).Propose?
        && e.to == WithFileName(e.from, MakePlan(cfg, caps, e.from).newName)
    {
      var j :| 0 <= j < |t| && t[j] == e;
      assert t[j - 2].Shown? && t[j - 2].path == e.from;
      assert MakePlan(cfg, caps, e.from) == Propose(t[j - 2].newName);
    }
  }

  // ---------------------------------------------------------------------------
  // Each entry is acted on at most once; a decline leaves the file alone
  // ---------------------------------------------------------------------------

  lemma StepActsOnItsFileOnly(cfg: Config, caps: Capabilities, path: Path, env: Env)
    ensures var acted := Acted(Step(cfg, caps, path, env).trace); acted == [] || acted == [path]
  {
    match MakePlan(cfg, caps, path)
    case Skip(r) =>
      assert Acted([Skipped(path, r)]) == [];
    case RenderFailed(_) =>
    case Propose(newName) =>
      if !cfg.diff {
        var c := Confirm(path, newName, env);
        assert Step(cfg, caps, path, env).trace == [Shown(path, newName)] + c.trace;
        assert Acted([Shown(path, newName)]) == [];
        ActedAppend([Shown(path, newName)], c.trace);
      } else {
        assert Acted([Shown(path, newName)]) == [];
      }
  }

  /** Renames and declines, taken together, happen at most as often as a path occurs in the
      list: a path listed once is renamed at most once, and never both renamed and declined. */
  lemma ActedCons(acts: seq<Path>, rest: seq<Path>, files: seq<Path>)
    requires |files| > 0
    requires acts == [] || acts == [files[0]]
    requires multiset(rest) <= multiset(files[1..])
    ensures multiset(acts + rest) <= multiset(files)
  {
    assert files == [files[0]] + files[1..];
    assert multiset(files) == multiset([files[0]]) + multiset(files[1..]);
  }

  lemma {:induction false} ActedAtMostOncePerEntry(cfg: Config, caps: Capabilities, files: seq<Path>, env: Env)
    ensures multiset(Acted(Run(cfg, caps, files, env).trace)) <= multiset(files)
    decreases |files|
  {
    if |files| > 0 {
      var s := Step(cfg, caps, files[0], env);
      StepActsOnItsFileOnly(cfg, caps, files[0], env);
      if s.status.Completed? {
        var r := Run(cfg, caps, files[1..], s.env);
        ActedAtMostOncePerEntry(cfg, caps, files[1..], s.env);
        ActedAppend(s.trace, r.trace);
        ActedCons(Acted(s.trace), Acted(r.trace), files);
      } else {
        ActedCons(Acted(s.trace), [], files);
      }
    }
  }

  /** The paths of the list are pairwise distinct. */
  predicate Distinct(files: seq<Path>)
  {
    forall i, j | 0 <= i < j < |files| :: files[i] != files[j]
  }

  lemma StepNeverDeclinesAndRenames(cfg: Config, caps: Capabilities, path: Path, env: Env)
    ensures var t := Step(cfg, caps, path, env).trace;
      forall d, r | d in t && r in t && d.Declined? :: !r.Renamed?
  {
    var plan := MakePlan(cfg, caps, path);
    if plan.Propose? && !cfg.diff {
      var c := Confirm(path, plan.newName, env);
      assert Step(cfg, caps, path, env).trace == [Shown(path, plan.newName)] + c.trace;
      ConfirmShapes(path, plan.newName, env);
    }
  }

  /** When every path is listed once, a file the user declined is never renamed: the answer
      "no" leaves it where it is for the rest of the run. */
  lemma {:induction false} DeclinedNeverRenamed(cfg: Config, caps: Capabilities, files: seq<Path>, env: Env)
    requires Distinct(files)
    ensures var t := Run(cfg, caps, files, env).trace;
      forall d, r | d in t && r in t && d.Declined? && r.Renamed? :: r.from != d.path
    decreases |files|
  {
    if |files| > 0 {
      var s := Step(cfg, caps, files[0], env);
      StepNeverDeclinesAndRenames(cfg, caps, files[0], env);
      if s.status.Completed? {
        var rest := Run(cfg, caps, files[1..], s.env);
        DeclinedNeverRenamed(cfg, caps, files[1..], s.env);
        assert files[0] !in files[1..];
      }
    }
  }

  // ---------------------------------------------------------------------------
  // Skipped files have no effect
  // ---------------------------------------------------------------------------

  /** The files that get past the file-name and capture-count checks: the list filtered in
      place, so they keep their list order. */
  function Unskipped(cfg: Config, caps: Capabilities, files: seq<Path>): (fs: seq<Path>)
    ensures forall p | p in fs :: p in files && Renamable(cfg, caps, p)
    ensures forall p | p in files && Renamable(cfg, caps, p) :: p in fs
    ensures multiset(fs) <= multiset(files)
  {
    if |files| == 0 then []
    else
      assert files == [files[0]] + files[1..];
      (if Renamable(cfg, caps, files[0]) then [files[0]] else []) + Unskipped(cfg, caps, files[1..])
  }

  /** The events of a trace other than skips. */
  function Effects(t: seq<Event>): seq<Event>
  {
    if |t| == 0 then []
    else (if t[0].Skipped? then [] else [t[0]]) + Effects(t[1..])
  }

  lemma {:induction false} EffectsAppend(a: seq<Event>, b: seq<Event>)
    ensures Effects(a + b) == Effects(a) + Effects(b)
    decreases |a|
  {
    if |a| > 0 {
      assert (a + b)[0] == a[0];
      assert (a + b)[1..] == a[1..] + b;
      EffectsAppend(a[1..], b);
    } else {
      assert a + b == b;
    }
  }

  lemma {:induction false} EffectsWithoutSkips(t: seq<Event>)
    requires forall e | e in t :: !e.Skipped?
    ensures Effects(t) == t
    decreases |t|
  {
    if |t| > 0 {
      EffectsWithoutSkips(t[1..]);
    }
  }

  /** Skipping is invisible: apart from the skip markers themselves, a run over a list behaves
      exactly like a run over the renamable files of the list alone. A skipped file is never
      rendered, shown, asked about or renamed, and processing goes on with the next path. */
  lemma {:induction false} SkipsAreInvisible(cfg: Config, caps: Capabilities, files: seq<Path>, env: Env)
    ensures var r := Run(cfg, caps, files, env);
      var u := Run(cfg, caps, Unskipped(cfg, caps, files), env);
      Effects(r.trace) == u.trace && r.status == u.status && r.env == u.env
    decreases |files|
  {
    if |files| > 0 {
      var s := Step(cfg, caps, files[0], env);
      var us := Unskipped(cfg, caps, files[1..]);
      if Renamable(cfg, caps, files[0]) {
        var fs := [files[0]] + us;
        assert Unskipped(cfg, caps, files) == fs;
        assert fs[0] == files[0] && fs[1..] == us;
        EffectsWithoutSkips(s.trace);
        if s.status.Completed? {
          SkipsAreInvisible(cfg, caps, files[1..], s.env);
          EffectsAppend(s.trace, Run(cfg, caps, files[1..], s.env).trace);
        }
      } else {
        assert Unskipped(cfg, caps, files) == us;
        SkipsAreInvisible(cfg, caps, files[1..], env);
        EffectsAppend(s.trace, Run(cfg, caps, files[1..], env).trace);
        assert Effects(s.trace) == [];
      }
    }
  }

  /** Proposals shown one per file, in order, each with the name the plan for that file proposes. */
  predicate ShowsEach(cfg: Config, caps: Capabilities, t: seq<Event>, files: seq<Path>)
  {
    && |t| == |files|
    && forall i | 0 <= i < |t| ::
      t[i].Shown? && t[i].path == files[i] && MakePlan(cfg, caps, files[i]) == Propose(t[i].newName)
  }

  lemma ShowsEachCons(cfg: Config, caps: Capabilities, name: string, t: seq<Event>, files: seq<Path>)
    requires |files| > 0 && MakePlan(cfg, caps, files[0]) == Propose(name)
    requires ShowsEach(cfg, caps, t, files[1..])
    ensures ShowsEach(cfg, caps, [Shown(files[0], name)] + t, files)
  {
    var u := [Shown(files[0], name)] + t;
    forall i | 0 <= i < |u|
      ensures u[i].Shown? && u[i].path == files[i] && MakePlan(cfg, caps, files[i]) == Propose(u[i].newName)
    {
      if i > 0 {
        assert u[i] == t[i - 1] && files[i] == files[1..][i - 1];
      }
    }
  }

  lemma {:induction false} DryRunOfRenamable(cfg: Config, caps: Capabilities, files: seq<Path>, env: Env)
    requires cfg.diff
    requires forall p | p in files :: Renamable(cfg, caps, p)
    ensures var r := Run(cfg, caps, files, env);
      r.status.Completed? ==> ShowsEach(cfg, caps, r.trace, files)
    decreases |files|
  {
    if |files| > 0 {
      var plan := MakePlan(cfg, caps, files[0]);
      var s := Step(cfg, caps, files[0], env);
      if plan.Propose? {
        assert s == Outcome([Shown(files[0], plan.newName)], Completed, env);
        DryRunOfRenamable(cfg, caps, files[1..], env);
        var r := Run(cfg, caps, files[1..], env);
        if r.status.Completed? {
          ShowsEachCons(cfg, caps, plan.newName, r.trace, files);
        }
      }
    }
  }

  /** With `--diff`, a run that completes shows exactly one proposal for every file that
      passes the checks, in list order, and nothing for the others. */
  lemma DryRunShowsEachMatch(cfg: Config, caps: Capabilities, files: seq<Path>, env: Env)
    requires cfg.diff
    ensures var r := Run(cfg, caps, files, env);
      r.status.Completed? ==> ShowsEach(cfg, caps, Effects(r.trace), Unskipped(cfg, caps, files))
  {
    SkipsAreInvisible(cfg, caps, files, env);
    DryRunOfRenamable(cfg, caps, Unskipped(cfg, caps, files), env);
  }

  // ---------------------------------------------------------------------------
  // A template that names an undeclared capture
  // ---------------------------------------------------------------------------

  /** If the template cannot be rendered from any binding of the declared names (as when it
      names a capture that was not declared), nothing is ever shown, asked or renamed: the
      first file that passes the checks aborts the run, and a run in which no file passes
      them completes having only skipped. */
  lemma {:induction false} MisconfiguredTemplateRenamesNothing(cfg: Config, caps: Capabilities, files: seq<Path>, env: Env)
    requires forall m: Bindings | m.Keys == NameSet(cfg.captures) :: caps.render(cfg.substitution, m).Err?
    ensures var r := Run(cfg, caps, files, env);
      && (forall e | e in r.trace :: e.Skipped?)
      && r.env == env
      && (r.status.Aborted? <==> exists p | p in files :: Renamable(cfg, caps, p))
    decreases |files|
  {
    if |files| > 0 {
      var p := files[0];
      if Renamable(cfg, caps, p) {
        var b := Bind(cfg.captures, Captures(cfg, caps, p.name.text)).value;
        PlanRendersLastWinsBinding(cfg, caps, p, b);
        assert caps.render(cfg.substitution, b).Err?;
      } else {
        MisconfiguredTemplateRenamesNothing(cfg, caps, files[1..], env);
        assert forall q | q in files :: q == p || q in files[1..];
      }
    }
  }
}

=== FILE: binder.dfy ===
/** The capture binder: pairs the declared capture names with the captured substrings. */
module Binder {
  import opened Wrappers

  /** The values the template renderer can substitute, keyed by capture name. */
  type Bindings = map<string, string>

  /** The set of declared capture names. */
  function NameSet(names: seq<string>): set<string>
  {
    set n | n in names
  }

  /** `Iterator::zip`: pairs elements position by position and stops at the shorter input. */
  function Zip<A, B>(xs: seq<A>, ys: seq<B>): (zs: seq<(A, B)>)
    ensures |zs| == if |xs| <= |ys| then |xs| else |ys|
    ensures forall i | 0 <= i < |zs| :: zs[i] == (xs[i], ys[i])
    decreases |xs|
  {
    if |xs| == 0 || |ys| == 0 then [] else [(xs[0], ys[0])] + Zip(xs[1..], ys[1..])
  }

  /** The keys of a sequence of pairs, in order. */
  function KeysOf<K, V>(ps: seq<(K, V)>): (ks: seq<K>)
    ensures |ks| == |ps|
    ensures forall i | 0 <= i < |ps| :: ks[i] == ps[i].0
  {
    seq(|ps|, i requires 0 <= i < |ps| => ps[i].0)
  }

  /** Position `i` holds the last occurrence of the key found there. */
  predicate LastOccurrence<K(==)>(keys: seq<K>, i: int)
  {
    0 <= i < |keys| && forall j | i < j < |keys| :: keys[j] != keys[i]
  }

  /** Every position is followed (or matched) by the last occurrence of its key. */
  lemma {:induction false} LastOccurrenceOf<K>(keys: seq<K>, i: nat) returns (j: nat)
    requires i < |keys|
    ensures i <= j && LastOccurrence(keys, j) && keys[j] == keys[i]
    decreases |keys| - i
  {
    if LastOccurrence(keys, i) {
      j := i;
    } else {
      var k :| i < k < |keys| && keys[k] == keys[i];
      j := LastOccurrenceOf(keys, k);
    }
  }

  /** `HashMap::from_iter`: inserts the pairs in order, so a later pair overwrites an
      earlier one with the same key. */
  function FromPairs<K(==), V>(ps: seq<(K, V)>): (m: map<K, V>)
    ensures m.Keys == set k | k in KeysOf(ps)
    ensures forall i | LastOccurrence(KeysOf(ps), i) :: m[ps[i].0] == ps[i].1
    decreases |ps|
  {
    if |ps| == 0 then map[]
    else
      var init := ps[..|ps| - 1];
      var last := ps[|ps| - 1];
      assert ps == init + [last];
      var m := FromPairs(init);
      InsertLast(init, last, m);
      m[last.0 := last.1]
  }

  /** Inserting one more pair keeps the last-occurrence values of the earlier keys that it
      does not repeat, and gives its own key its value. */
  lemma InsertLast<K, V>(init: seq<(K, V)>, last: (K, V), m: map<K, V>)
    requires m.Keys == set k | k in KeysOf(init)
    requires forall i | LastOccurrence(KeysOf(init), i) :: m[init[i].0] == init[i].1
    ensures var ps := init + [last];
      && m[last.0 := last.1].Keys == set k | k in KeysOf(ps)
      && forall i | LastOccurrence(KeysOf(ps), i) :: m[last.0 := last.1][ps[i].0] == ps[i].1
  {
    var ps := init + [last];
    var m' := m[last.0 := last.1];
    assert KeysOf(ps) == KeysOf(init) + [last.0];
    forall i | LastOccurrence(KeysOf(ps), i)
      ensures m'[ps[i].0] == ps[i].1
    {
      if i < |init| {
        assert ps[i] == init[i];
        assert KeysOf(ps)[|init|] == last.0;
        assert forall j | 0 <= j < |init| :: KeysOf(init)[j] == KeysOf(ps)[j];
        assert LastOccurrence(KeysOf(init), i);
      }
    }
  }

  /** `m` binds each of `names` to the value at the same position of `values`, a repeated
      name taking the value of its last occurrence, and binds nothing else. */
  predicate LastWins(names: seq<string>, values: seq<string>, m: Bindings)
  {
    && |values| == |names|
    && m.Keys == NameSet(names)
    && forall i | 0 <= i < |names| && LastOccurrence(names, i) :: m[names[i]] == values[i]
  }

  /** The binding is determined by the names and values: two maps that both satisfy the
      last-wins rule are equal. */
  lemma {:induction false} LastWinsUnique(names: seq<string>, values: seq<string>, m1: Bindings, m2: Bindings)
    requires LastWins(names, values, m1)
    requires LastWins(names, values, m2)
    ensures m1 == m2
  {
    forall k | k in m1
      ensures m1[k] == m2[k]
    {
      var i :| 0 <= i < |names| && names[i] == k;
      var j := LastOccurrenceOf(names, i);
    }
  }

  /** The capture-count check and the name/capture zip of one file. `captures[0]` is the
      full match; the sub-captures follow it. */
  function Bind(names: seq<string>, captures: seq<string>): (r: Option<Bindings>)
    ensures r.Some? <==> |captures| == |names| + 1
    ensures r.Some? ==> LastWins(names, captures[1..], r.value)
  {
    if |captures| != |names| + 1 then None
    else
      var ps := Zip(names, captures[1..]);
      assert KeysOf(ps) == names;
      Some(FromPairs(ps))
  }

  /** Conversely, any map that binds the names last-wins to the sub-captures is the result
      of the binder. */
  lemma BindIsLastWins(names: seq<string>, captures: seq<string>, m: Bindings)
    requires |captures| == |names| + 1
    requires LastWins(names, captures[1..], m)
    ensures Bind(names, captures) == Some(m)
  {
    LastWinsUnique(names, captures[1..], m, Bind(names, captures).value);
  }
}

=== FILE: examples_run.dfy ===
/** A worked run: pattern `(%d+)-(%a+)`, captures `num` and `word`, template `{word}_{num}`. */
module ExampleRun {
  import opened Wrappers
  import opened Paths
  import opened Binder
  import opened Planner
  import opened Batch

  /** What the Lua matcher yields for the two file names of the example. */
  function ExampleMatcher(pattern: string, subject: string): seq<string>
  {
    if subject == "42-report.txt" then ["42-report", "42", "report"] else []
  }

  /** The renderer, for the one template of the example. */
  function ExampleRender(template: string, m: Bindings): Result<string, string>
  {
    if "word" in m && "num" in m then Ok(m["word"] + "_" + m["num"]) else Err("unknown placeholder")
  }

  const report := Path("docs", Utf8("42-report.txt"))
  const notes := Path("docs", Utf8("notes.txt"))

  function ExampleConfig(diff: bool): Config
  {
    Config([report, notes], ["num", "word"], "(%d+)-(%a+)", "{word}_{num}", diff)
  }

  lemma ExampleBinding()
    ensures Bind(["num", "word"], ["42-report", "42", "report"]) == Some(map["num" := "42", "word" := "report"])
  {
    var expected := map["num" := "42", "word" := "report"];
    assert LastOccurrence(["num", "word"], 0) && LastOccurrence(["num", "word"], 1);
    assert NameSet(["num", "word"]) == {"num", "word"};
    assert ["42-report", "42", "report"][1..] == ["42", "report"];
    assert LastWins(["num", "word"], ["42", "report"], expected);
    BindIsLastWins(["num", "word"], ["42-report", "42", "report"], expected);
  }

  /** The example file binds `num` to `42` and `word` to `report`, and renders to `report_42`. */
  lemma ReportPlan(cfg: Config)
    requires cfg.captures == ["num", "word"] && cfg.substitution == "{word}_{num}"
    ensures Bind(["num", "word"], ["42-report", "42", "report"]) == Some(map["num" := "42", "word" := "report"])
    ensures MakePlan(cfg, Capabilities(ExampleMatcher, ExampleRender), report) == Propose("report_42")
  {
    ExampleBinding();
    var caps := Capabilities(ExampleMatcher, ExampleRender);
    assert Captures(cfg, caps, "42-report.txt") == ["42-report", "42", "report"];
  }

  /** With `--diff`, the matching file is shown as `report_42` (the template spans the whole
      file name, so the extension is not kept) and the other file is skipped; no answer is used. */
  lemma DryRunExample(env: Env)
    ensures Run(ExampleConfig(true), Capabilities(ExampleMatcher, ExampleRender), [report, notes], env) ==
      Outcome([Shown(report, "report_42"), Skipped(notes, CaptureCountMismatch(0, 3))], Completed, env)
  {
    var cfg := ExampleConfig(true);
    var caps := Capabilities(ExampleMatcher, ExampleRender);
    ReportPlan(cfg);
    var first := Step(cfg, caps, report, env);
    assert first == Outcome([Shown(report, "report_42")], Completed, env);
    var second := Step(cfg, caps, notes, env);
    assert second == Outcome([Skipped(notes, CaptureCountMismatch(0, 3))], Completed, env);
    assert [notes][1..] == [];
    assert Run(cfg, caps, [notes], env) == Then(second, Outcome([], Completed, env));
    assert cfg.files[1..] == [notes];
    assert Run(cfg, caps, cfg.files, env) == Then(first, Run(cfg, caps, [notes], env));
  }

  /** Answering "yes" for the matching file renames it within `docs`. */
  lemma ConfirmedStep(rest: seq<Answer>)
    ensures Step(ExampleConfig(false), Capabilities(ExampleMatcher, ExampleRender), report, Env([Yes] + rest, [IoOk])) ==
      Outcome([Shown(report, "report_42"), Confirmed(report), Renamed(report, Path("docs", Utf8("report_42")))],
              Completed, Env(rest, []))
  {
    ReportPlan(ExampleConfig(false));
    assert ([Yes] + rest)[1..] == rest && [IoOk][1..] == [];
    assert Confirm(report, "report_42", Env([Yes] + rest, [IoOk])) ==
      Outcome([Confirmed(report), Renamed(report, Path("docs", Utf8("report_42")))], Completed, Env(rest, []));
  }

  /** Without `--diff`, answering "yes" and then nothing more renames the matching file to
      `docs/report_42` and skips the other one. */
  lemma ConfirmedExample(rest: seq<Answer>)
    ensures Run(ExampleConfig(false), Capabilities(ExampleMatcher, ExampleRender), [report, notes], Env([Yes] + rest, [IoOk])) ==
      Outcome([Shown(report, "report_42"), Confirmed(report), Renamed(report, Path("docs", Utf8("report_42"))),
               Skipped(notes, CaptureCountMismatch(0, 3))], Completed, Env(rest, []))
  {
    var cfg := ExampleConfig(false);
    var caps := Capabilities(ExampleMatcher, ExampleRender);
    var env := Env([Yes] + rest, [IoOk]);
    var env' := Env(rest, []);
    ConfirmedStep(rest);
    var first := Step(cfg, caps, report, env);
    var second := Step(cfg, caps, notes, env');
    assert second == Outcome([Skipped(notes, CaptureCountMismatch(0, 3))], Completed, env');
    assert [notes][1..] == [];
    assert Run(cfg, caps, [notes], env') == Then(second, Outcome([], Completed, env'));
    assert cfg.files[1..] == [notes];
    assert Run(cfg, caps, cfg.files, env) == Then(first, Run(cfg, caps, [notes], env'));
  }
}

=== FILE: paths.dfy ===
/** File paths, reduced to what the renamer looks at: the last component and everything before it. */
module Paths {
  import opened Wrappers

  /** The last component of a path, as `Path::file_name` followed by `OsStr::to_str` see it. */
  datatype FileName =
    | NoFileName              // the path ends in `..`, is a root, is `.`, or is empty
    | NonUtf8(raw: seq<bv8>)  // a file name whose bytes are not valid UTF-8
    | Utf8(text: string)      // a file name that is valid text

  /** A path. `dir` is the path with its last component removed or, when the path has no
      file name, the whole path: in both cases it is what `set_file_name` appends to. */
  datatype Path = Path(dir: string, name: FileName)

  /** The file name of `p` as text, when it has one that is valid UTF-8. */
  function FileNameText(p: Path): Option<string>
  {
    match p.name
    case Utf8(text) => Some(text)
    case _ => None
  }

  /** `PathBuf::set_file_name`: replaces the file name (or appends one when there is none).
      The new name is treated as one ordinary component; names that are not (a separator,
      an absolute path, empty, `.` or `..`) are outside this model. */
  function WithFileName(p: Path, newName: string): (q: Path)
    ensures q.dir == p.dir
    ensures FileNameText(q) == Some(newName)
    ensures q == p <==> FileNameText(p) == Some(newName)
  {
    Path(p.dir, Utf8(newName))
  }
}

=== FILE: planner.dfy ===
/** The per-file rename planner: file name, pattern match, capture binding, template rendering. */
module Planner {
  import opened Wrappers
  import opened Paths
  import opened Binder

  /** The command line, already parsed: the files, the capture names (`--cap`), the Lua
      pattern (`--pat`), the substitution template (`--sub`) and the `--diff` flag. */
  datatype Config = Config(
    files: seq<Path>,
    captures: seq<string>,
    pattern: string,
    substitution: string,
    diff: bool)

  /** The two library capabilities the renamer relies on but does not implement.
      `matcher(pattern, subject)` returns the full match followed by the sub-captures,
      or the empty sequence when there is no match; `render(template, bindings)` returns
      the substituted text or an error message. */
  datatype Capabilities = Capabilities(
    matcher: (string, string) -> seq<string>,
    render: (string, Bindings) -> Result<string, string>)

  /** Why a file is passed over. */
  datatype SkipReason =
    | MissingFileName
    | NonUtf8FileName
    | CaptureCountMismatch(found: nat, expected: nat)

  /** What the renamer decides for one file. */
  datatype Plan =
    | Skip(reason: SkipReason)
    | Propose(newName: string)
    | RenderFailed(message: string)

  /** The captures the pattern yields for the file name `name`. */
  function Captures(cfg: Config, caps: Capabilities, name: string): seq<string>
  {
    caps.matcher(cfg.pattern, name)
  }

  /** A file is renamable when it has a UTF-8 file name whose match yields exactly one
      full match and one sub-capture per declared name. */
  predicate Renamable(cfg: Config, caps: Capabilities, path: Path)
  {
    path.name.Utf8? && |Captures(cfg, caps, path.name.text)| == |cfg.captures| + 1
  }

  /** The plan for a rendered template: the new name, or the render error. */
  function Rendered(r: Result<string, string>): Plan
  {
    match r
    case Ok(text) => Propose(text)
    case Err(e) => RenderFailed(e)
  }

  /** Plans one file. A file that is not renamable is skipped; otherwise the template is
      rendered with the binding of the names to the sub-captures. */
  function MakePlan(cfg: Config, caps: Capabilities, path: Path): (p: Plan)
    ensures p.Skip? <==> !Renamable(cfg, caps, path)
    ensures path.name.Utf8? && Captures(cfg, caps, path.name.text) == [] ==> p.Skip?
  {
    match path.name
    case NoFileName => Skip(MissingFileName)
    case NonUtf8(_) => Skip(NonUtf8FileName)
    case Utf8(name) =>
      var captures := Captures(cfg, caps, name);
      match Bind(cfg.captures, captures)
      case None => Skip(CaptureCountMismatch(|captures|, |cfg.captures| + 1))
      case Some(bindings) =>
        Rendered(caps.render(cfg.substitution, bindings))
  }

  /** The plan of a renamable file is the renderer's verdict on the last-wins binding of
      the declared names to the sub-captures, whichever map represents that binding. */
  lemma PlanRendersLastWinsBinding(cfg: Config, caps: Capabilities, path: Path, m: Bindings)
    requires Renamable(cfg, caps, path)
    requires LastWins(cfg.captures, Captures(cfg, caps, path.name.text)[1..], m)
    ensures MakePlan(cfg, caps, path) == Rendered(caps.render(cfg.substitution, m))
  {
    var captures := Captures(cfg, caps, path.name.text);
    BindIsLastWins(cfg.captures, captures, m);
  }
}

=== FILE: wrappers.dfy ===
/** Failure-carrying values, named after the Rust types the program uses. */
module Wrappers {

  /** An optional value, as Rust's `Option`. */
  datatype Option<+T> = None | Some(value: T)

  /** A value or an error, as Rust's `Result`. */
  datatype Result<+T, +E> = Ok(value: T) | Err(error: E)
}
